=== FILE: README.md ===
# Wet1Sim in Dafny

A model of `Wet1Sim`, the reference simulator of the "wet1" employment
exercise, and of the containers it uses (simulator.py:8-183). The
simulator is a small deterministic state machine. It holds one
recruitment pool, the `k` high-tech firms created by `Init`, and the
directory `ged` of every id that was added and not yet removed by a
successful RemoveJobSearcher. Every
protocol command checks its arguments and may change the state. Each one
answers with exactly one line: `<Verb>: Invalid_input`, `<Verb>: Failure`,
`<Verb>: Success` or `<Verb>: Success <n>`, plus `Init done.`,
`Init was already called.`, `Quit done.` and the `#<text>` echo of a
comment.

Modules, one per file:

- `Options` (options.dfy). The optional result of a selection or a parse.
- `Rosters` (rosters.dfy). A container is a map from employee id to
  salary. Ids are unique because of the directory check, so object
  identity is not needed. The file holds the selection by greatest
  (salary, id) used by `find_by_salary` and `highest_paid`, and the
  threshold-gated `cutbacks`. It also holds loop versions of these (a
  linear scan that selects the same element as `max(...)` and
  `sorted(...)[-1]`, and the per-member mutating loop), each proved equal to
  its functional definition.
- `Protocol` (protocol.dfy). The response lines as a datatype.
  - `Render` spells a response out as the simulator's string, without the
    trailing newline.
  - `Parse` reads a line back. `Parse(Render(r)) == Some(r)`, so two unstripped
    lines are equal exactly when their responses are.
- `Simulator` (simulator.dfy). The state and the twelve `Wet1Sim`
  operations as pure functions returning the response and the next state.
  Their contracts give each response as an if-and-only-if over the
  arguments and the state. They also give the state after success, and
  say that the state is unchanged otherwise.
- `Commands` (commands.dfy). The commands as data. `Execute` dispatches one
  command and `Run` answers a sequence of them.
- `Invariants` (invariants.dfy). The invariant of reachable states:
  - each live employee is in the pool or in exactly one firm;
  - every live id is in the directory;
  - ids and salaries are never negative;
  - nothing is live outside Init … Quit.

  It is preserved by every command. Hire, HireBySalary and Fire move
  exactly one employee and keep the headcount.
- `Properties` (properties.dfy). Properties across commands:
  - Invalid_input exactly for out-of-domain arguments;
  - failures are atomic;
  - the directory is sticky, so a re-added id is refused even after a
    hire or a Quit/Init;
  - Fire and RemoveJobSearcher cannot be repeated;
  - Init takes effect once.
- `Scenarios` (scenarios.dfy). Fixed test sequences of simple_tests.py,
  each with the responses the simulator gives.

Three behaviours of the source worth knowing:

- `Quit` clears the pool and the firms but keeps the directory
  (simulator.py:176-180). An id added before a Quit is therefore still
  refused after the next Init.
- `Init(k)` with `k <= 0` creates no firms, because `xrange(k)` is empty
  (simulator.py:73).
- In testTypicalCutbacks (simple_tests.py:213-224) the salaries 20, 30, 40
  cut by 10 at threshold 30 become 20, 20, 30, since only salaries with
  `salary >= thd` are cut (simulator.py:59). HighestPaid then answers 3.

## Model

| member | source | states |
|---|---|---|
| Rosters.TopUnique | simulator.py:42 | two members that both have the greatest (salary, id) are the same member, because distinct ids never tie on the key |
| Rosters.TopExists | simulator.py:42 | every non-empty finite set of employees has a member with the greatest (salary, id) |
| Rosters.FindBySalary | simulator.py:39-42 | None exactly when every pool salary exceeds the threshold. Otherwise it returns the pool member earning at most the threshold with the greatest (salary, id) |
| Rosters.ScanBySalary | simulator.py:39-42 | the filter-then-max scan over the pool returns exactly the member `FindBySalary` specifies |
| Rosters.MaxByKey | simulator.py:42 | the linear max-by-(salary, id) scan returns None exactly for an empty set. Otherwise it returns the set's unique top |
| Rosters.HighestPaid | simulator.py:52-55 | None exactly for an empty firm (the raise). Otherwise it returns the member with the greatest (salary, id) |
| Rosters.ScanHighestPaid | simulator.py:52-55 | the scan standing in for `sorted(...)[-1]` returns exactly the member `HighestPaid` specifies |
| Rosters.CutBacks | simulator.py:57-61 | same members. Every salary at or above the threshold drops by exactly the cut, and every other salary is unchanged |
| Rosters.CutEach | simulator.py:57-61 | the member-by-member mutating loop ends with exactly the roster `CutBacks` specifies |
| Rosters.CutBacksKeepsSalariesNonNegative | simulator.py:57-61 | with 0 <= cut <= thd, non-negative salaries stay non-negative and none grows |
| Protocol.DigitsRoundTrip | simulator.py:153 | the decimal digits of a natural number (`%d`) read back as that number |
| Protocol.DecimalRoundTrip | simulator.py:153 | `%d` of any integer, sign included, parses back to the integer |
| Protocol.ParseRender | simulator.py:69-183 | every response line the simulator can produce parses back to the response it renders |
| Protocol.Render | simulator.py:69-183 | each response as the simulator's line without its newline. The line is never empty, it starts with `#` exactly for an echo (followed by the text), and an answer to a verb starts with the verb's name and `: ` |
| Protocol.RenderInjective | simulator.py:69-183 | two responses render to the same unstripped line if and only if they are equal |
| Simulator.Hired | simulator.py:105-107 | moving pool member `id` to firm `cid` takes exactly that id out of the pool and adds it to firm `cid` with its pool salary. The directory, the other pool members, the firm's other members and every other firm are unchanged |
| Rosters.CutSalary | simulator.py:58-60 | a salary at or above the threshold drops by exactly the cut, and any other salary is unchanged. A non-negative cut never raises it, and with 0 <= cut <= thd a non-negative salary stays non-negative |
| Simulator.Init | simulator.py:69-75 | the first call answers `Init done.` and creates max(k, 0) empty firms and an empty pool, keeping the directory. Any later call answers `Init was already called.` and changes nothing |
| Simulator.AddJobSearcher | simulator.py:77-87 | Invalid_input iff id or salary is negative. Failure iff the id is already in the directory. Otherwise the id enters both the directory and the pool with its salary. Only success changes the state |
| Simulator.RemoveJobSearcher | simulator.py:89-99 | Invalid_input iff id < 0. Success iff the id is in the directory and its employee is still in the pool, and then it leaves both. Otherwise Failure with nothing changed, including for a hired employee |
| Simulator.Hire | simulator.py:101-110 | Invalid_input iff id < 0 or cid is not a firm. Failure iff the id is not in the pool. Success moves the employee with its salary from the pool to the firm, leaving the directory alone |
| Simulator.HireBySalary | simulator.py:112-123 | Invalid_input iff cid is not a firm or thd < 0. Failure, with the state unchanged, iff every pool salary exceeds thd. Success moves exactly the pool member with the greatest (salary, id) among those earning at most thd |
| Simulator.Bonus | simulator.py:125-133 | Invalid_input iff cid, id or bonus is out of range. Failure iff the id is not in the firm. Success raises that member's salary by the bonus, and nothing else changes |
| Simulator.Fire | simulator.py:135-144 | Invalid_input iff cid is not a firm or id < 0. Failure iff the id is not in the firm. Success moves the member with its salary back to the pool |
| Simulator.GetNumEmployed | simulator.py:146-153 | never changes the state. Invalid_input iff cid is not a firm, otherwise it answers Success with the firm's size (it never fails) |
| Simulator.HighestPaid | simulator.py:155-162 | never changes the state. Invalid_input iff cid is not a firm. Failure iff the firm is empty. Otherwise it answers the id with the greatest (salary, id) in the firm |
| Simulator.CutBacks | simulator.py:164-174 | Invalid_input iff cid is not a firm, thd < 0, cut < 0 or cut > thd. Failure iff the firm is empty. Success cuts exactly the firm's salaries at or above thd by cut and touches nothing else |
| Simulator.Quit | simulator.py:176-180 | answers `Quit done.` and drops the pool and the firms, but keeps the directory |
| Simulator.Comment | simulator.py:182-183 | the answer is the line `#` followed by the text, and the state is unchanged |
| Commands.Execute | simulator.py:69-183 | Comment, GetNumEmployed and HighestPaid never change the state. The answer is an echo exactly for a Comment |
| Commands.Run | simulator.py:69-183 | a sequence of commands gets exactly one response per command |
| Commands.RunConcat | simulator.py:69-183 | answering `a` then `b` is answering `a + b`. The responses concatenate and `b` starts from the state `a` leaves |
| Invariants.FreshIsValid | simulator.py:65-67 | the state after construction satisfies the reachable-state invariant |
| Invariants.ExecutePreservesValid | simulator.py:69-183 | every command, whatever its answer, keeps the invariant. That means pool/firm partition, every live id filed, non-negative ids and salaries, and nothing live before Init |
| Invariants.RunPreservesValid | simulator.py:69-183 | every state reached by a sequence of commands from a valid state is valid |
| Invariants.PlaceIsExact | simulator.py:101-110 | in a valid state an id is in the pool, in exactly one firm, or nowhere, and `PlaceOf` names which |
| Invariants.HireMovesOne | simulator.py:101-110 | a successful Hire moves its id from the pool to firm cid. No other id changes place and the headcount is unchanged |
| Invariants.HireBySalaryMovesOne | simulator.py:112-123 | a successful HireBySalary moves exactly one id, the eligible top, from the pool to firm cid. The headcount is unchanged |
| Invariants.FireMovesOne | simulator.py:135-144 | a successful Fire moves its id from firm cid to the pool. No other id changes place and the headcount is unchanged |
| Invariants.PoolCommandsCountOne | simulator.py:77-99 | a successful AddJobSearcher adds one live employee and a successful RemoveJobSearcher removes one |
| Properties.InvalidInputIffOutOfDomain | simulator.py:77-167 | every command answers Invalid_input exactly when an argument is out of its domain, and then leaves the state unchanged. That means a negative id, salary, threshold, cut or bonus, a cid outside the firms, or cut > thd |
| Properties.FailureIsAtomic | simulator.py:80-174 | a command that answers Failure leaves the state unchanged |
| Properties.ResponseNamesCommand | simulator.py:69-183 | the answer carries the name of the command it answers. Init and only Init answers an Init line, and Quit and only Quit answers `Quit done.` |
| Properties.DirectoryChanges | simulator.py:77-99 | the directory grows only by a successful AddJobSearcher's id and shrinks only by a successful RemoveJobSearcher's id |
| Properties.DirectoryIsSticky | simulator.py:101-110 | an id in the directory stays there through any sequence of commands that does not remove it. That includes hires, Quit and Init |
| Properties.ReAddFails | simulator.py:81-83 | after any such sequence, adding the id again answers Failure |
| Properties.RunAppend | simulator.py:69-183 | running one more command after a sequence answers as that command does in the sequence's final state |
| Properties.RemoveTwiceFails | simulator.py:89-99 | a RemoveJobSearcher that succeeded fails when repeated |
| Properties.FireTwiceFails | simulator.py:135-144 | a Fire that succeeded fails when repeated |
| Properties.AnswersAreNonNegative | simulator.py:146-162 | in a valid state every number in an answer is non-negative |
| Properties.MovesShiftFirmCounts | simulator.py:101-153 | in a valid state, after a successful Hire or HireBySalary GetNumEmployed of that firm answers one more, and after a successful Fire one less. Every other firm's answer is unchanged |
| Properties.InitOnce | simulator.py:69-75 | after one Init, a second Init with any argument answers `Init was already called.` and changes nothing |
| Scenarios.HireBySalaryScenario | simple_tests.py:115-119 | the searcher earning 1 is hired at threshold 40, and the firm then has one employee |
| Scenarios.NoHireBySalaryScenario | simple_tests.py:121-126 | the searcher earning 41 is not hired at threshold 40, and the firm stays empty |
| Scenarios.AddDuplicateScenario | simple_tests.py:61-65 | re-adding an id that was hired away answers Failure |
| Scenarios.FireNobodyScenario | simple_tests.py:161-163 | firing an id nobody employs answers Failure |
| Scenarios.FireTwiceScenario | simple_tests.py:166-173 | the second Fire of the same employee fails, and the firm stays empty |
| Scenarios.InitTwiceScenario | simple_tests.py:51-53 | a second Init, with another argument, answers `Init was already called.` |
| Scenarios.NegativeBonusScenario | simple_tests.py:141-145 | a negative bonus for a hired employee answers Invalid_input |
| Scenarios.CutOfThree | simple_tests.py:222 | salaries 20, 30, 40 cut by 10 at threshold 30 become 20, 20, 30 |
| Scenarios.TopOfThree | simple_tests.py:223 | among salaries 20, 20, 30 the highest paid is id 3 |
| Scenarios.TypicalCutBacksScenario | simple_tests.py:213-224 | the ten commands all succeed, the firm's salaries end as 20, 20, 30, HighestPaid answers 3 and GetNumEmployed answers 3 |

## Left out

- `Wet1Proxy` (simulator.py:186-258) is left out. It covers process spawning, valgrind, the reader thread, the one-second queue timeout and the `WET1_EXEC` environment variable, all of which are I/O and concurrency.
- `SimulatedWet1Proxy` and its exception (simulator.py:261-328) are left out. They cover log writing and the line comparison against the external program's output. `Protocol.RenderInjective` is about unstripped lines. After the comparison's `.strip()` (simulator.py:285-286), distinct responses such as the echoes of `x` and `x ` can give the same line.
- The test drivers are left out: simple_tests.py, randomized_tests.py and sanity_test.py. Only some fixed sequences of simple_tests.py appear, as `Scenarios` lemmas.
- Simulator.AddJobSearcher, Simulator.RemoveJobSearcher, Simulator.Hire, Simulator.HireBySalary, Simulator.Bonus, Simulator.Fire, Simulator.GetNumEmployed, Simulator.HighestPaid, Simulator.CutBacks and Simulator.Quit all require the simulator to be initialized.
  - Before Init (or after Quit) the source raises AttributeError once it reaches the missing pool or firm list. A second Quit raises the same way.
  - Some commands answer before reaching that point. Examples are an AddJobSearcher with a negative id or with an id already in the directory, or a Hire with a negative id. These early answers are not modelled either.
- The `raise` of a duplicate `add_employee` in Hire, HireBySalary and Fire is left out, and so is the bare `except:` of Hire (simulator.py:107-108, 120, 141). The partition invariant (`Invariants.Valid`, kept by every command) makes them unreachable. In a state violating it, the source would take the employee out of one container before failing.
- The trailing newline of every response is left out, because the comparison strips it. Also left out are the `strip` of the external program's lines and the whitespace handling of comment text.
- Employee objects and Python object identity are left out. An employee is its id, and its salary is stored in the container that holds it.
- The directory's Employee objects are left out. The directory and the container share one Employee object (simulator.py:83-84), and nothing reads a salary through `ged`, so only its ids are kept.
- Python integers are unbounded, and so are the model's. No wrap-around is modelled because the simulator has none.

=== FILE: commands.dfy ===
/** The protocol's commands as data, one per line of the wire protocol, and
    the simulator answering a command or a whole sequence of them
    (simulator.py:69-183). */
module Commands {
  import Protocol
  import Simulator

  datatype Command =
    | Init(k: int)
    | AddJobSearcher(id: int, salary: int)
    | RemoveJobSearcher(id: int)
    | Hire(cid: int, id: int)
    | HireBySalary(cid: int, thd: int)
    | Bonus(cid: int, id: int, bonus: int)
    | Fire(cid: int, id: int)
    | GetNumEmployed(cid: int)
    | HighestPaid(cid: int)
    | CutBacks(cid: int, thd: int, cut: int)
    | Quit
    | Comment(text: string)

  /** The simulator can answer `c` in state `s`: every command other than
      Init and Comment reads the pool or the firms, which exist only between
      Init and Quit (the source raises AttributeError otherwise). */
  predicate Enabled(s: Simulator.Sim, c: Command)
  {
    s.initialized || c.Init? || c.Comment?
  }

  /** The simulator's answer to one command, and the state after it. */
  function Execute(s: Simulator.Sim, c: Command): (r: Simulator.Step)
    requires Enabled(s, c)
    ensures c.Comment? || c.GetNumEmployed? || c.HighestPaid? ==> r.next == s
    ensures r.response.Echo? <==> c.Comment?
  {
    match c
    case Init(k) => Simulator.Init(s, k)
    case AddJobSearcher(id, salary) => Simulator.AddJobSearcher(s, id, salary)
    case RemoveJobSearcher(id) => Simulator.RemoveJobSearcher(s, id)
    case Hire(cid, id) => Simulator.Hire(s, cid, id)
    case HireBySalary(cid, thd) => Simulator.HireBySalary(s, cid, thd)
    case Bonus(cid, id, bonus) => Simulator.Bonus(s, cid, id, bonus)
    case Fire(cid, id) => Simulator.Fire(s, cid, id)
    case GetNumEmployed(cid) => Simulator.GetNumEmployed(s, cid)
    case HighestPaid(cid) => Simulator.HighestPaid(s, cid)
    case CutBacks(cid, thd, cut) => Simulator.CutBacks(s, cid, thd, cut)
    case Quit => Simulator.Quit(s)
    case Comment(text) => Simulator.Comment(s, text)
  }

  /** Every command of `cmds` is enabled when its turn comes. */
  predicate Runnable(s: Simulator.Sim, cmds: seq<Command>)
    decreases |cmds|
  {
    cmds == [] || (Enabled(s, cmds[0]) && Runnable(Execute(s, cmds[0]).next, cmds[1..]))
  }

  /** The responses to a sequence of commands, in order, and the final state. */
  datatype Trace = Trace(responses: seq<Protocol.Response>, final: Simulator.Sim)

  function Run(s: Simulator.Sim, cmds: seq<Command>): (t: Trace)
    requires Runnable(s, cmds)
    ensures |t.responses| == |cmds|
    decreases |cmds|
  {
    if cmds == [] then Trace([], s)
    else
      var step := Execute(s, cmds[0]);
      var rest := Run(step.next, cmds[1..]);
      Trace([step.response] + rest.responses, rest.final)
  }

  /** Running `c` then `rest` answers `c` first, then `rest` from the state
      `c` leaves behind. */
  lemma RunCons(s: Simulator.Sim, c: Command, rest: seq<Command>)
    requires Enabled(s, c) && Runnable(Execute(s, c).next, rest)
    ensures Runnable(s, [c] + rest)
    ensures Run(s, [c] + rest).responses ==
              [Execute(s, c).response] + Run(Execute(s, c).next, rest).responses
    ensures Run(s, [c] + rest).final == Run(Execute(s, c).next, rest).final
  {
    assert ([c] + rest)[0] == c;
    assert ([c] + rest)[1..] == rest;
  }

  /** Running `a` then `b` is running `a + b`: the responses concatenate
      and `b` starts where `a` ended. */
  lemma {:induction false} RunConcat(s: Simulator.Sim, a: seq<Command>, b: seq<Command>)
    requires Runnable(s, a) && Runnable(Run(s, a).final, b)
    ensures Runnable(s, a + b)
    ensures Run(s, a + b) == Trace(Run(s, a).responses + Run(Run(s, a).final, b).responses,
                                   Run(Run(s, a).final, b).final)
    decreases |a|
  {
    if a == [] {
      assert a + b == b;
    } else {
      var c, tail := a[0], a[1..];
      var next := Execute(s, c).next;
      assert a == [c] + tail;
      RunCons(s, c, tail);
      var mid := Run(s, a).final;
      assert mid == Run(next, tail).final;
      RunConcat(next, tail, b);
      assert a + b == [c] + (tail + b);
      RunCons(s, c, tail + b);
      assert Run(s, a + b).final == Run(mid, b).final;
      assert Run(s, a + b).responses == Run(s, a).responses + Run(mid, b).responses;
    }
  }
}

=== FILE: invariants.dfy ===
/** What stays true of every state the simulator reaches (simulator.py:64-183):
    each live employee is in the pool or in exactly one firm, every live id
    is in the directory, ids and salaries are never negative, and nothing is
    live outside Init ... Quit. Every command preserves this, and the moving
    commands keep the number of live employees fixed. */
module Invariants {
  import opened Options
  import opened Rosters
  import opened Simulator
  import opened Commands

  /** Nothing but the directory survives outside Init ... Quit. */
  predicate Dormant(s: Sim)
  {
    !s.initialized ==> s.pool == map[] && s.firms == []
  }

  /** Every live id is in the directory, and directory ids are never negative. */
  predicate Filed(s: Sim)
  {
    && s.pool.Keys <= s.ged
    && (forall i :: 0 <= i < |s.firms| ==> s.firms[i].Keys <= s.ged)
    && (forall id :: id in s.ged ==> id >= 0)
  }

  predicate NonNegativePay(s: Sim)
  {
    && (forall id :: id in s.pool ==> s.pool[id] >= 0)
    && (forall i, id :: 0 <= i < |s.firms| && id in s.firms[i] ==> s.firms[i][id] >= 0)
  }

  /** No id is in two containers at once. */
  predicate Partitioned(s: Sim)
  {
    && (forall i :: 0 <= i < |s.firms| ==> s.pool.Keys !! s.firms[i].Keys)
    && (forall i, j :: 0 <= i < |s.firms| && 0 <= j < |s.firms| && i != j ==>
                         s.firms[i].Keys !! s.firms[j].Keys)
  }

  predicate Valid(s: Sim)
  {
    Dormant(s) && Filed(s) && NonNegativePay(s) && Partitioned(s)
  }

  lemma FreshIsValid()
    ensures Valid(Fresh)
  {
  }

  /** Where a live employee is. */
  datatype Place = Nowhere | InPool | InFirm(cid: nat)

  /** The last firm holding `id`, if any (under Partitioned, the only one). */
  function FirmOf(firms: seq<Roster>, id: int): (r: Option<nat>)
    ensures r.Some? ==> r.value < |firms| && id in firms[r.value]
    ensures r.None? ==> forall i :: 0 <= i < |firms| ==> id !in firms[i]
    decreases |firms|
  {
    if firms == [] then None
    else if id in firms[|firms| - 1] then Some(|firms| - 1)
    else FirmOf(firms[..|firms| - 1], id)
  }

  function PlaceOf(s: Sim, id: int): Place
  {
    if id in s.pool then InPool
    else match FirmOf(s.firms, id)
      case None => Nowhere
      case Some(i) => InFirm(i)
  }

  /** In a valid state an id is in the pool, or in exactly one firm, or
      nowhere, and PlaceOf says which. */
  lemma PlaceIsExact(s: Sim, id: int)
    requires Valid(s)
    ensures id in s.pool <==> PlaceOf(s, id) == InPool
    ensures forall i :: 0 <= i < |s.firms| ==> (id in s.firms[i] <==> PlaceOf(s, id) == InFirm(i))
    ensures PlaceOf(s, id) == Nowhere <==>
              id !in s.pool && forall i :: 0 <= i < |s.firms| ==> id !in s.firms[i]
  {
  }

  /** Total size of the firms. */
  function FirmSizes(firms: seq<Roster>): nat
    decreases |firms|
  {
    if firms == [] then 0 else FirmSizes(firms[..|firms| - 1]) + |firms[|firms| - 1]|
  }

  /** The number of live employees: the pool plus every firm. */
  function Headcount(s: Sim): nat
  {
    |s.pool| + FirmSizes(s.firms)
  }

  lemma {:induction false} FirmSizesUpdate(firms: seq<Roster>, i: int, f: Roster)
    requires 0 <= i < |firms|
    ensures FirmSizes(firms[i := f]) == FirmSizes(firms) - |firms[i]| + |f|
    decreases |firms|
  {
    var n := |firms| - 1;
    if i < n {
      FirmSizesUpdate(firms[..n], i, f);
      assert firms[i := f][..n] == firms[..n][i := f];
    } else {
      assert firms[i := f][..n] == firms[..n];
    }
  }

  lemma RemoveOneKey(m: Roster, id: int)
    requires id in m
    ensures |m - {id}| == |m| - 1
  {
    assert (m - {id}).Keys == m.Keys - {id};
    assert |m.Keys - {id}| == |m.Keys| - 1;
  }

  // ---- Preservation, one command at a time ----

  lemma AddJobSearcherPreservesValid(s: Sim, id: int, salary: int)
    requires Valid(s) && s.initialized
    ensures Valid(Simulator.AddJobSearcher(s, id, salary).next)
  {
  }

  lemma RemoveJobSearcherPreservesValid(s: Sim, id: int)
    requires Valid(s) && s.initialized
    ensures Valid(Simulator.RemoveJobSearcher(s, id).next)
  {
  }

  lemma HiredPreservesValid(s: Sim, cid: int, id: int)
    requires Valid(s) && IsFirm(s, cid) && id in s.pool
    ensures Valid(Hired(s, cid, id))
  {
    var t := Hired(s, cid, id);
    forall i | 0 <= i < |t.firms|
      ensures t.pool.Keys !! t.firms[i].Keys
    {
      if i == cid {
        assert t.firms[i].Keys == s.firms[i].Keys + {id};
      }
    }
    forall i, j | 0 <= i < |t.firms| && 0 <= j < |t.firms| && i != j
      ensures t.firms[i].Keys !! t.firms[j].Keys
    {
      assert t.firms[cid].Keys == s.firms[cid].Keys + {id};
    }
  }

  lemma HirePreservesValid(s: Sim, cid: int, id: int)
    requires Valid(s) && s.initialized
    ensures Valid(Simulator.Hire(s, cid, id).next)
  {
    if Simulator.Hire(s, cid, id).response.Success? {
      HiredPreservesValid(s, cid, id);
    }
  }

  lemma HireBySalaryPreservesValid(s: Sim, cid: int, thd: int)
    requires Valid(s) && s.initialized
    ensures Valid(Simulator.HireBySalary(s, cid, thd).next)
  {
    var r := Simulator.HireBySalary(s, cid, thd);
    if r.response.Success? {
      var x :| x in s.pool && s.pool[x] <= thd && r.next == Hired(s, cid, x) &&
               forall y :: y in s.pool && s.pool[y] <= thd ==> RanksAtMost(s.pool, y, x);
      HiredPreservesValid(s, cid, x);
    }
  }

  lemma BonusPreservesValid(s: Sim, cid: int, id: int, bonus: int)
    requires Valid(s) && s.initialized
    ensures Valid(Simulator.Bonus(s, cid, id, bonus).next)
  {
  }

  lemma FirePreservesValid(s: Sim, cid: int, id: int)
    requires Valid(s) && s.initialized
    ensures Valid(Simulator.Fire(s, cid, id).next)
  {
    var r := Simulator.Fire(s, cid, id);
    if r.response.Success? {
      var t := r.next;
      assert t.pool.Keys == s.pool.Keys + {id};
      assert t.firms[cid].Keys == s.firms[cid].Keys - {id};
      forall i | 0 <= i < |t.firms|
        ensures t.pool.Keys !! t.firms[i].Keys
      {
        if i != cid {
          assert id in s.firms[cid] && id !in s.firms[i];
        }
      }
    }
  }

  lemma CutBacksPreservesValid(s: Sim, cid: int, thd: int, cut: int)
    requires Valid(s) && s.initialized
    ensures Valid(Simulator.CutBacks(s, cid, thd, cut).next)
  {
    var r := Simulator.CutBacks(s, cid, thd, cut);
    if r.response.Success? {
      CutBacksKeepsSalariesNonNegative(s.firms[cid], thd, cut);
    }
  }

  lemma ExecutePreservesValid(s: Sim, c: Command)
    requires Valid(s) && Enabled(s, c)
    ensures Valid(Execute(s, c).next)
  {
    match c
    case Init(k) =>
    case AddJobSearcher(id, salary) => AddJobSearcherPreservesValid(s, id, salary);
    case RemoveJobSearcher(id) => RemoveJobSearcherPreservesValid(s, id);
    case Hire(cid, id) => HirePreservesValid(s, cid, id);
    case HireBySalary(cid, thd) => HireBySalaryPreservesValid(s, cid, thd);
    case Bonus(cid, id, bonus) => BonusPreservesValid(s, cid, id, bonus);
    case Fire(cid, id) => FirePreservesValid(s, cid, id);
    case GetNumEmployed(cid) =>
    case HighestPaid(cid) =>
    case CutBacks(cid, thd, cut) => CutBacksPreservesValid(s, cid, thd, cut);
    case Quit =>
    case Comment(text) =>
  }

  /** Every state reached from a valid one is valid; in particular every
      state reached from Wet1Sim's initial state. */
  lemma {:induction false} RunPreservesValid(s: Sim, cmds: seq<Command>)
    requires Valid(s) && Runnable(s, cmds)
    ensures Valid(Run(s, cmds).final)
    decreases |cmds|
  {
    if cmds != [] {
      ExecutePreservesValid(s, cmds[0]);
      RunPreservesValid(Execute(s, cmds[0]).next, cmds[1..]);
    }
  }

  // ---- Moves: exactly one employee changes place, headcount is kept ----

  lemma HiredMovesOne(s: Sim, cid: int, id: int)
    requires Valid(s) && IsFirm(s, cid) && id in s.pool
    ensures PlaceOf(s, id) == InPool && PlaceOf(Hired(s, cid, id), id) == InFirm(cid)
    ensures forall x :: x != id ==> PlaceOf(Hired(s, cid, id), x) == PlaceOf(s, x)
    ensures Headcount(Hired(s, cid, id)) == Headcount(s)
  {
    var t := Hired(s, cid, id);
    HiredPreservesValid(s, cid, id);
    PlaceIsExact(t, id);
    forall x | x != id
      ensures PlaceOf(t, x) == PlaceOf(s, x)
    {
      PlaceIsExact(s, x);
      PlaceIsExact(t, x);
    }
    RemoveOneKey(s.pool, id);
    FirmSizesUpdate(s.firms, cid, s.firms[cid][id := s.pool[id]]);
  }

  /** A successful Hire moves its employee from the pool to firm `cid` and
      nobody else; the headcount is unchanged. */
  lemma HireMovesOne(s: Sim, cid: int, id: int)
    requires Valid(s) && s.initialized
    requires Simulator.Hire(s, cid, id).response.Success?
    ensures PlaceOf(s, id) == InPool
    ensures PlaceOf(Simulator.Hire(s, cid, id).next, id) == InFirm(cid)
    ensures forall x :: x != id ==> PlaceOf(Simulator.Hire(s, cid, id).next, x) == PlaceOf(s, x)
    ensures Headcount(Simulator.Hire(s, cid, id).next) == Headcount(s)
  {
    HiredMovesOne(s, cid, id);
  }

  /** Employee `x` goes from place `origin` to place `target`, and every other id
      stays where it was. */
  ghost predicate MovesOnly(s: Sim, t: Sim, x: int, origin: Place, target: Place)
  {
    PlaceOf(s, x) == origin && PlaceOf(t, x) == target && forall z :: z != x ==> PlaceOf(t, z) == PlaceOf(s, z)
  }

  /** `x` is the pool member with the greatest (salary, id) among those
      earning at most `thd`. */
  predicate EligibleTop(pool: Roster, thd: int, x: int)
  {
    x in pool && pool[x] <= thd && forall y :: y in pool && pool[y] <= thd ==> RanksAtMost(pool, y, x)
  }

  /** A successful HireBySalary moves one pool employee, the one with the
      greatest (salary, id) earning at most `thd`, to firm `cid`. */
  lemma HireBySalaryMovesOne(s: Sim, cid: int, thd: int)
    requires Valid(s) && s.initialized
    requires Simulator.HireBySalary(s, cid, thd).response.Success?
    ensures exists x :: EligibleTop(s.pool, thd, x) &&
                        MovesOnly(s, Simulator.HireBySalary(s, cid, thd).next, x, InPool, InFirm(cid))
    ensures Headcount(Simulator.HireBySalary(s, cid, thd).next) == Headcount(s)
  {
    var t := Simulator.HireBySalary(s, cid, thd).next;
    var x :| x in s.pool && s.pool[x] <= thd && t == Hired(s, cid, x) &&
             forall y :: y in s.pool && s.pool[y] <= thd ==> RanksAtMost(s.pool, y, x);
    HiredMovesOne(s, cid, x);
    assert EligibleTop(s.pool, thd, x);
    assert MovesOnly(s, t, x, InPool, InFirm(cid));
  }

  /** A successful Fire moves its employee from firm `cid` back to the pool
      and nobody else; the headcount is unchanged. */
  lemma FireMovesOne(s: Sim, cid: int, id: int)
    requires Valid(s) && s.initialized
    requires Simulator.Fire(s, cid, id).response.Success?
    ensures PlaceOf(s, id) == InFirm(cid)
    ensures PlaceOf(Simulator.Fire(s, cid, id).next, id) == InPool
    ensures forall x :: x != id ==> PlaceOf(Simulator.Fire(s, cid, id).next, x) == PlaceOf(s, x)
    ensures Headcount(Simulator.Fire(s, cid, id).next) == Headcount(s)
  {
    var t := Simulator.Fire(s, cid, id).next;
    FirePreservesValid(s, cid, id);
    PlaceIsExact(s, id);
    PlaceIsExact(t, id);
    forall x | x != id
      ensures PlaceOf(t, x) == PlaceOf(s, x)
    {
      PlaceIsExact(s, x);
      PlaceIsExact(t, x);
    }
    RemoveOneKey(s.firms[cid], id);
    FirmSizesUpdate(s.firms, cid, s.firms[cid] - {id});
  }

  /** AddJobSearcher and RemoveJobSearcher change the headcount by one on
      success. */
  lemma PoolCommandsCountOne(s: Sim, id: int, salary: int)
    requires Valid(s) && s.initialized
    ensures Simulator.AddJobSearcher(s, id, salary).response.Success? ==>
              Headcount(Simulator.AddJobSearcher(s, id, salary).next) == Headcount(s) + 1
    ensures Simulator.RemoveJobSearcher(s, id).response.Success? ==>
              Headcount(Simulator.RemoveJobSearcher(s, id).next) == Headcount(s) - 1
  {
    if Simulator.RemoveJobSearcher(s, id).response.Success? {
      RemoveOneKey(s.pool, id);
    }
  }
}

=== FILE: options.dfy ===
/** An optional value: the result of a lookup or a selection that may find
    nothing. */
module Options {
  datatype Option<T> = None | Some(value: T)
}

=== FILE: properties.dfy ===
/** Properties of the simulator's answers across all commands
    (simulator.py:69-183): how arguments are classified, that failures are
    atomic, that the directory only loses an id through a successful
    RemoveJobSearcher, and that removals and firings cannot be repeated. */
module Properties {
  import Protocol
  import Options
  import opened Simulator
  import opened Commands
  import opened Invariants

  /** The argument checks of each command, stated on their own: a negative
      id, salary, threshold, cut or bonus, a cid outside the firms, or a cut
      above its threshold (simulator.py:78, 90, 102, 113, 126, 136, 147, 156,
      165-166). Init, Quit and Comment take no checked argument. */
  predicate OutOfDomain(s: Sim, c: Command)
  {
    match c
    case Init(_) => false
    case AddJobSearcher(id, salary) => id < 0 || salary < 0
    case RemoveJobSearcher(id) => id < 0
    case Hire(cid, id) => !IsFirm(s, cid) || id < 0
    case HireBySalary(cid, thd) => !IsFirm(s, cid) || thd < 0
    case Bonus(cid, id, bonus) => !IsFirm(s, cid) || id < 0 || bonus < 0
    case Fire(cid, id) => !IsFirm(s, cid) || id < 0
    case GetNumEmployed(cid) => !IsFirm(s, cid)
    case HighestPaid(cid) => !IsFirm(s, cid)
    case CutBacks(cid, thd, cut) => !IsFirm(s, cid) || thd < 0 || cut < 0 || cut > thd
    case Quit => false
    case Comment(_) => false
  }

  /** A command answers Invalid_input exactly when an argument is out of
      its domain, and then the state is untouched. */
  lemma InvalidInputIffOutOfDomain(s: Sim, c: Command)
    requires Enabled(s, c)
    ensures Execute(s, c).response.InvalidInput? <==> OutOfDomain(s, c)
    ensures Execute(s, c).response.InvalidInput? ==> Execute(s, c).next == s
  {
  }

  /** A command that answers Failure changes nothing: operations are
      applied entirely or not at all. */
  lemma FailureIsAtomic(s: Sim, c: Command)
    requires Enabled(s, c)
    ensures Execute(s, c).response.Failure? ==> Execute(s, c).next == s
  {
  }

  /** The answer names the command it answers. */
  lemma ResponseNamesCommand(s: Sim, c: Command)
    requires Enabled(s, c)
    ensures var r := Execute(s, c).response;
            (r.InvalidInput? || r.Failure? || r.Success? || r.SuccessWith?) ==> VerbOf(c) == Options.Some(r.verb)
    ensures c.Init? <==> Execute(s, c).response in {Protocol.InitDone, Protocol.InitAlreadyCalled}
    ensures c.Quit? <==> Execute(s, c).response == Protocol.QuitDone
  {
  }

  function VerbOf(c: Command): Options.Option<Protocol.Verb>
  {
    match c
    case AddJobSearcher(_, _) => Options.Some(Protocol.AddJobSearcher)
    case RemoveJobSearcher(_) => Options.Some(Protocol.RemoveJobSearcher)
    case Hire(_, _) => Options.Some(Protocol.Hire)
    case HireBySalary(_, _) => Options.Some(Protocol.HireBySalary)
    case Bonus(_, _, _) => Options.Some(Protocol.Bonus)
    case Fire(_, _) => Options.Some(Protocol.Fire)
    case GetNumEmployed(_) => Options.Some(Protocol.GetNumEmployed)
    case HighestPaid(_) => Options.Some(Protocol.HighestPaid)
    case CutBacks(_, _, _) => Options.Some(Protocol.CutBacks)
    case Init(_) => Options.None
    case Quit => Options.None
    case Comment(_) => Options.None
  }

  /** The directory changes only on a successful AddJobSearcher (which adds
      the id) or a successful RemoveJobSearcher (which drops it). Hiring,
      firing, Quit and Init leave it alone (simulator.py:83, 96, 101-110,
      176-180). */
  lemma DirectoryChanges(s: Sim, c: Command)
    requires Enabled(s, c)
    ensures var r := Execute(s, c);
            r.next.ged == (if c.AddJobSearcher? && r.response.Success? then s.ged + {c.id}
                           else if c.RemoveJobSearcher? && r.response.Success? then s.ged - {c.id}
                           else s.ged)
  {
  }

  /** Once an id is in the directory it stays there, whatever runs, until a
      RemoveJobSearcher of that id: the directory is sticky. */
  lemma {:induction false} DirectoryIsSticky(s: Sim, cmds: seq<Command>, id: int)
    requires Runnable(s, cmds) && id in s.ged
    requires forall i :: 0 <= i < |cmds| ==> cmds[i] != RemoveJobSearcher(id)
    ensures id in Run(s, cmds).final.ged
    decreases |cmds|
  {
    if cmds != [] {
      DirectoryChanges(s, cmds[0]);
      var t := Execute(s, cmds[0]).next;
      assert id in t.ged;
      forall i | 0 <= i < |cmds[1..]|
        ensures cmds[1..][i] != RemoveJobSearcher(id)
      {
        assert cmds[1..][i] == cmds[i + 1];
      }
      DirectoryIsSticky(t, cmds[1..], id);
    }
  }

  /** Hence an id once added can never be added again until a successful
      RemoveJobSearcher removes it, even after it was hired or the simulator
      was restarted by Quit and Init. */
  lemma {:induction false} ReAddFails(s: Sim, cmds: seq<Command>, id: int, salary: int)
    requires Runnable(s, cmds + [AddJobSearcher(id, salary)])
    requires id in s.ged && id >= 0 && salary >= 0
    requires forall i :: 0 <= i < |cmds| ==> cmds[i] != RemoveJobSearcher(id)
    ensures Run(s, cmds + [AddJobSearcher(id, salary)]).responses[|cmds|] ==
              Protocol.Failure(Protocol.AddJobSearcher)
  {
    var c := AddJobSearcher(id, salary);
    RunAppend(s, cmds, c);
    DirectoryIsSticky(s, cmds, id);
    var rs := Run(s, cmds + [c]).responses;
    var f := Run(s, cmds).final;
    assert f.initialized && id in f.ged;
    var last := Execute(f, c).response;
    assert last == Simulator.AddJobSearcher(f, id, salary).response;
    assert rs == Run(s, cmds).responses + [last];
    assert rs[|cmds|] == last;
  }

  /** Running one more command after a sequence answers as that command
      would in the sequence's final state. */
  lemma {:induction false} RunAppend(s: Sim, cmds: seq<Command>, c: Command)
    requires Runnable(s, cmds + [c])
    ensures Runnable(s, cmds)
    ensures Enabled(Run(s, cmds).final, c)
    ensures Run(s, cmds + [c]).responses ==
              Run(s, cmds).responses + [Execute(Run(s, cmds).final, c).response]
    ensures Run(s, cmds + [c]).final == Execute(Run(s, cmds).final, c).next
    decreases |cmds|
  {
    if cmds == [] {
      assert cmds + [c] == [c];
    } else {
      assert (cmds + [c])[0] == cmds[0];
      assert (cmds + [c])[1..] == cmds[1..] + [c];
      RunAppend(Execute(s, cmds[0]).next, cmds[1..], c);
    }
  }

  /** Removing the same job searcher twice in a row fails the second time. */
  lemma RemoveTwiceFails(s: Sim, id: int)
    requires s.initialized
    requires Execute(s, RemoveJobSearcher(id)).response.Success?
    ensures Execute(Execute(s, RemoveJobSearcher(id)).next, RemoveJobSearcher(id)).response ==
              Protocol.Failure(Protocol.RemoveJobSearcher)
  {
  }

  /** Firing the same employee twice in a row fails the second time. */
  lemma FireTwiceFails(s: Sim, cid: int, id: int)
    requires s.initialized
    requires Execute(s, Fire(cid, id)).response.Success?
    ensures Execute(Execute(s, Fire(cid, id)).next, Fire(cid, id)).response == Protocol.Failure(Protocol.Fire)
  {
  }

  /** In a reachable state every number in an answer is non-negative: counts
      are sizes and ids are checked on entry. */
  lemma AnswersAreNonNegative(s: Sim, c: Command)
    requires Valid(s) && Enabled(s, c)
    ensures Execute(s, c).response.SuccessWith? ==> Execute(s, c).response.n >= 0
  {
  }

  /** Init takes effect once: a second Init answers "already called" and
      changes nothing, whatever its argument. */
  lemma InitOnce(s: Sim, k1: int, k2: int)
    ensures var t := Execute(s, Init(k1)).next;
            Execute(t, Init(k2)) == Step(Protocol.InitAlreadyCalled, t)
  {
  }

  /** In a valid state the hired employee was in the pool, so not already
      in the firm: the firm grows by exactly one. */
  lemma HiredGrowsFirm(s: Sim, cid: int, x: int)
    requires Valid(s) && IsFirm(s, cid) && x in s.pool
    ensures |Hired(s, cid, x).firms[cid]| == |s.firms[cid]| + 1
  {
    assert x !in s.firms[cid];
    assert Hired(s, cid, x).firms[cid].Keys == s.firms[cid].Keys + {x};
  }

  /** The sizes behind MovesShiftFirmCounts: the firm of a successful move
      grows or shrinks by one and every other firm is untouched. */
  lemma MovedFirmSizes(s: Sim, c: Command)
    requires Valid(s) && s.initialized && (c.Hire? || c.HireBySalary? || c.Fire?)
    requires Execute(s, c).response.Success?
    ensures IsFirm(s, c.cid)
    ensures var t := Execute(s, c).next;
            && t.initialized && |t.firms| == |s.firms|
            && |t.firms[c.cid]| == |s.firms[c.cid]| + (if c.Fire? then -1 else 1)
            && forall i :: 0 <= i < |s.firms| && i != c.cid ==> t.firms[i] == s.firms[i]
  {
    var t := Execute(s, c).next;
    if c.Fire? {
      RemoveOneKey(s.firms[c.cid], c.id);
    } else {
      var x: int;
      if c.Hire? {
        x := c.id;
      } else {
        x :| x in s.pool && t == Hired(s, c.cid, x);
      }
      assert x in s.pool && t == Hired(s, c.cid, x);
      HiredGrowsFirm(s, c.cid, x);
    }
  }

  /** A successful Hire or HireBySalary makes GetNumEmployed of its firm
      answer one more, a successful Fire one less, and every other firm's
      answer stays the same: in a valid state the moved employee was not
      already in the receiving container. */
  lemma MovesShiftFirmCounts(s: Sim, c: Command)
    requires Valid(s) && s.initialized && (c.Hire? || c.HireBySalary? || c.Fire?)
    requires Execute(s, c).response.Success?
    ensures IsFirm(s, c.cid)
    ensures var t := Execute(s, c).next;
            Simulator.GetNumEmployed(t, c.cid).response ==
              Protocol.SuccessWith(Protocol.GetNumEmployed, |s.firms[c.cid]| + (if c.Fire? then -1 else 1))
    ensures var t := Execute(s, c).next;
            forall i :: IsFirm(s, i) && i != c.cid ==> Simulator.GetNumEmployed(t, i).response == Simulator.GetNumEmployed(s, i).response
  {
    MovedFirmSizes(s, c);
  }
}

=== FILE: protocol.dfy ===
/** The response lines of the command protocol (simulator.py:69-183).

    Every command answers with exactly one line. The simulator builds these
    lines as strings; here they are a datatype, `Render` spells each one out
    as the string the simulator returns (without the trailing newline), and
    `Parse` reads a line back. Since `Parse(Render(r)) == Some(r)`, two
    responses render to the same unstripped line exactly when they are the
    same response. Once lines are stripped of surrounding whitespace, as the
    runner does before comparing them, two echoes may coincide. */
module Protocol {
  import opened Options

  /** The commands whose answers carry their own name. */
  datatype Verb =
    | AddJobSearcher | RemoveJobSearcher | Hire | HireBySalary | Bonus
    | Fire | GetNumEmployed | HighestPaid | CutBacks

  datatype Response =
    | InitDone                          // "Init done."
    | InitAlreadyCalled                 // "Init was already called."
    | QuitDone                          // "Quit done."
    | InvalidInput(verb: Verb)          // "<verb>: Invalid_input"
    | Failure(verb: Verb)               // "<verb>: Failure"
    | Success(verb: Verb)               // "<verb>: Success"
    | SuccessWith(verb: Verb, n: int)   // "<verb>: Success <n>"
    | Echo(text: string)                // "#<text>"

  function VerbName(v: Verb): string
  {
    match v
    case AddJobSearcher => "AddJobSearcher"
    case RemoveJobSearcher => "RemoveJobSearcher"
    case Hire => "Hire"
    case HireBySalary => "HireBySalary"
    case Bonus => "Bonus"
    case Fire => "Fire"
    case GetNumEmployed => "GetNumEmployed"
    case HighestPaid => "HighestPaid"
    case CutBacks => "CutBacks"
  }

  function VerbNamed(name: string): Option<Verb>
  {
    if name == "AddJobSearcher" then Some(AddJobSearcher)
    else if name == "RemoveJobSearcher" then Some(RemoveJobSearcher)
    else if name == "Hire" then Some(Hire)
    else if name == "HireBySalary" then Some(HireBySalary)
    else if name == "Bonus" then Some(Bonus)
    else if name == "Fire" then Some(Fire)
    else if name == "GetNumEmployed" then Some(GetNumEmployed)
    else if name == "HighestPaid" then Some(HighestPaid)
    else if name == "CutBacks" then Some(CutBacks)
    else None
  }

  predicate IsDigit(c: char)
  {
    '0' <= c <= '9'
  }

  predicate AllDigits(s: string)
  {
    forall i :: 0 <= i < |s| ==> IsDigit(s[i])
  }

  /** Decimal digits of a natural number, most significant first, without
      leading zeros: the `%d` of simulator.py:153 and 162. */
  function Digits(n: nat): (s: string)
    ensures |s| > 0 && AllDigits(s)
    decreases n
  {
    var last := [('0' as int + n % 10) as char];
    if n < 10 then last else Digits(n / 10) + last
  }

  /** The value of a string of decimal digits. */
  function DigitsValue(s: string): nat
    requires AllDigits(s)
    decreases |s|
  {
    if s == [] then 0
    else DigitsValue(s[..|s| - 1]) * 10 + (s[|s| - 1] as int - '0' as int)
  }

  lemma {:induction false} DigitsRoundTrip(n: nat)
    ensures DigitsValue(Digits(n)) == n
    decreases n
  {
    var s := Digits(n);
    if n >= 10 {
      DigitsRoundTrip(n / 10);
      assert s[..|s| - 1] == Digits(n / 10);
    }
  }

  /** `%d` of a possibly negative integer. */
  function DecimalString(n: int): string
  {
    if n < 0 then "-" + Digits(-n) else Digits(n)
  }

  function ParseDecimal(s: string): Option<int>
  {
    if |s| > 0 && s[0] == '-' then
      if |s| > 1 && AllDigits(s[1..]) then Some(0 - DigitsValue(s[1..])) else None
    else if |s| > 0 && AllDigits(s) then Some(DigitsValue(s))
    else None
  }

  lemma DecimalRoundTrip(n: int)
    ensures ParseDecimal(DecimalString(n)) == Some(n)
  {
    if n < 0 {
      DigitsRoundTrip(-n);
      assert DecimalString(n)[1..] == Digits(-n);
    } else {
      DigitsRoundTrip(n);
    }
  }

  /** A line that answers verb `v`: its name, then ": ". */
  predicate Answers(line: string, v: Verb)
  {
    var name := VerbName(v);
    |line| >= |name| + 2 && line[..|name|] == name && line[|name|..|name| + 2] == ": "
  }

  lemma AnswersVerb(v: Verb, rest: string)
    requires |rest| >= 2 && rest[..2] == ": "
    ensures Answers(VerbName(v) + rest, v)
  {
    var line := VerbName(v) + rest;
    var k := |VerbName(v)|;
    assert line[..k] == VerbName(v);
    assert line[k..k + 2] == rest[..2];
  }

  /** The line the simulator answers with, without its trailing newline. An
      echo, and only an echo, starts with '#'; an answer to a verb starts
      with the verb's name and ": ". */
  function Render(r: Response): (line: string)
    ensures |line| > 0
    ensures line[0] == '#' <==> r.Echo?
    ensures r.Echo? ==> line[1..] == r.text
    ensures r.InvalidInput? || r.Failure? || r.Success? || r.SuccessWith? ==> Answers(line, r.verb)
  {
    match r
    case InitDone => "Init done."
    case InitAlreadyCalled => "Init was already called."
    case QuitDone => "Quit done."
    case InvalidInput(v) => VerbNameIsWord(v); AnswersVerb(v, ": Invalid_input"); VerbName(v) + ": Invalid_input"
    case Failure(v) => VerbNameIsWord(v); AnswersVerb(v, ": Failure"); VerbName(v) + ": Failure"
    case Success(v) => VerbNameIsWord(v); AnswersVerb(v, ": Success"); VerbName(v) + ": Success"
    case SuccessWith(v, n) => VerbNameIsWord(v);
      AnswersVerb(v, ": Success " + DecimalString(n));
      VerbName(v) + (": Success " + DecimalString(n))
    case Echo(text) => "#" + text
  }

  /** Index of the first ':' in `s`, if any. */
  function ColonAt(s: string): (r: Option<nat>)
    ensures r.Some? ==> r.value < |s| && s[r.value] == ':'
    decreases |s|
  {
    if s == [] then None
    else if s[0] == ':' then Some(0)
    else match ColonAt(s[1..])
      case None => None
      case Some(i) => Some(i + 1)
  }

  predicate NoColon(s: string)
  {
    forall i :: 0 <= i < |s| ==> s[i] != ':'
  }

  predicate IsLetter(c: char)
  {
    'A' <= c <= 'Z' || 'a' <= c <= 'z'
  }

  /** A non-empty run of letters, as every verb name is. */
  predicate Word(s: string)
  {
    |s| > 0 && forall i :: 0 <= i < |s| ==> IsLetter(s[i])
  }

  lemma {:induction false} ColonAfterPrefix(a: string, b: string)
    requires NoColon(a)
    ensures ColonAt(a + b) == match ColonAt(b)
                               case None => None
                               case Some(i) => Some(|a| + i)
    decreases |a|
  {
    if a == [] {
      assert a + b == b;
    } else {
      assert (a + b)[1..] == a[1..] + b;
      ColonAfterPrefix(a[1..], b);
    }
  }

  /** What follows "<verb>" in a line answering that verb. */
  function ParseOutcome(v: Verb, rest: string): Option<Response>
  {
    if rest == ": Invalid_input" then Some(InvalidInput(v))
    else if rest == ": Failure" then Some(Failure(v))
    else if rest == ": Success" then Some(Success(v))
    else if |rest| > 10 && rest[..10] == ": Success " then
      match ParseDecimal(rest[10..])
      case None => None
      case Some(n) => Some(SuccessWith(v, n))
    else None
  }

  /** Reads a response line back; None for a line no response renders to. */
  function Parse(line: string): Option<Response>
  {
    if |line| > 0 && line[0] == '#' then Some(Echo(line[1..]))
    else match ColonAt(line)
      case None =>
        if line == "Init done." then Some(InitDone)
        else if line == "Init was already called." then Some(InitAlreadyCalled)
        else if line == "Quit done." then Some(QuitDone)
        else None
      case Some(i) =>
        match VerbNamed(line[..i])
        case None => None
        case Some(v) => ParseOutcome(v, line[i..])
  }

  lemma VerbNameIsWord(v: Verb)
    ensures Word(VerbName(v))
  {
    match v
    case AddJobSearcher => assert Word("AddJobSearcher");
    case RemoveJobSearcher => assert Word("RemoveJobSearcher");
    case Hire => assert Word("Hire");
    case HireBySalary => assert Word("HireBySalary");
    case Bonus => assert Word("Bonus");
    case Fire => assert Word("Fire");
    case GetNumEmployed => assert Word("GetNumEmployed");
    case HighestPaid => assert Word("HighestPaid");
    case CutBacks => assert Word("CutBacks");
  }

  lemma VerbNamedInverse(v: Verb)
    ensures VerbNamed(VerbName(v)) == Some(v)
  {
  }

  /** A line with no ':' and no leading '#' is one of the fixed lines. */
  lemma ParseFixed(line: string)
    requires NoColon(line) && |line| > 0 && line[0] != '#'
    ensures Parse(line) == (if line == "Init done." then Some(InitDone)
                            else if line == "Init was already called." then Some(InitAlreadyCalled)
                            else if line == "Quit done." then Some(QuitDone)
                            else None)
  {
    ColonAfterPrefix(line, []);
    assert line + [] == line;
  }

  /** A line "<verb>: ..." is parsed as an answer to that verb. */
  lemma VerbOutcome(v: Verb, rest: string)
    requires |rest| > 0 && rest[0] == ':'
    ensures Parse(VerbName(v) + rest) == ParseOutcome(v, rest)
  {
    var line := VerbName(v) + rest;
    VerbNameIsWord(v);
    VerbNamedInverse(v);
    ColonAfterPrefix(VerbName(v), rest);
    assert ColonAt(rest) == Some(0);
    assert line[0] == VerbName(v)[0];
    assert line[..|VerbName(v)|] == VerbName(v);
    assert line[|VerbName(v)|..] == rest;
  }

  /** The tail of a counted answer reads back as that count. */
  lemma CountedOutcome(v: Verb, n: int)
    ensures ParseOutcome(v, ": Success " + DecimalString(n)) == Some(SuccessWith(v, n))
  {
    var rest := ": Success " + DecimalString(n);
    assert |rest| > 10 && rest[..10] == ": Success ";
    assert rest[2] == 'S' && ": Invalid_input"[2] == 'I';
    assert |": Failure"| == 9 && |": Success"| == 9;
    assert rest[10..] == DecimalString(n);
    DecimalRoundTrip(n);
  }

  lemma ParseRenderCounted(v: Verb, n: int)
    ensures Parse(Render(SuccessWith(v, n))) == Some(SuccessWith(v, n))
  {
    var rest := ": Success " + DecimalString(n);
    assert Render(SuccessWith(v, n)) == VerbName(v) + rest;
    VerbOutcome(v, rest);
    CountedOutcome(v, n);
  }

  /** Parsing a rendered line gives back the response. */
  lemma ParseRender(r: Response)
    ensures Parse(Render(r)) == Some(r)
  {
    match r {
      case InitDone =>
        assert NoColon("Init done.");
        ParseFixed("Init done.");
      case InitAlreadyCalled =>
        assert NoColon("Init was already called.");
        ParseFixed("Init was already called.");
      case QuitDone =>
        assert NoColon("Quit done.");
        ParseFixed("Quit done.");
      case Echo(text) =>
        assert Render(r)[1..] == text;
      case InvalidInput(v) =>
        VerbOutcome(v, ": Invalid_input");
      case Failure(v) =>
        VerbOutcome(v, ": Failure");
      case Success(v) =>
        VerbOutcome(v, ": Success");
      case SuccessWith(v, n) =>
        ParseRenderCounted(v, n);
    }
  }

  /** Two responses render to the same line only if they are the same
      response: comparing unstripped lines compares responses. */
  lemma RenderInjective(a: Response, b: Response)
    ensures Render(a) == Render(b) <==> a == b
  {
    if Render(a) == Render(b) {
      ParseRender(a);
      ParseRender(b);
    }
  }
}

=== FILE: rosters.dfy ===
/** Employees and the containers that hold them: the recruitment pool and the
    high-tech firms (simulator.py:8-61).

    An Employee is an id with a salary. A container holds Employee objects,
    never two with the same id, so it is modelled as a map from id to salary:
    a `Roster`. The selection rules of the recruitment pool and of a firm both
    rank employees by the pair (salary, id), compared lexicographically. */
module Rosters {
  import opened Options

  /** The employees of one container, keyed by id, each with its salary. */
  type Roster = map<int, int>

  /** `a` ranks no higher than `b` under the key (salary, id). */
  predicate RanksAtMost(pay: Roster, a: int, b: int)
    requires a in pay && b in pay
  {
    pay[a] < pay[b] || (pay[a] == pay[b] && a <= b)
  }

  /** `x` is the member of `ids` with the greatest (salary, id). */
  predicate IsTop(ids: set<int>, pay: Roster, x: int)
    requires ids <= pay.Keys
  {
    x in ids && forall y :: y in ids ==> RanksAtMost(pay, y, x)
  }

  /** A non-empty set has a member. */
  lemma SomeMember(ids: set<int>)
    requires ids != {}
    ensures exists x :: x in ids
  {
    if forall x :: x !in ids {
      assert false;
    }
  }

  /** Distinct ids never tie on (salary, id), so the top is unique. */
  lemma TopUnique(ids: set<int>, pay: Roster, x: int, y: int)
    requires ids <= pay.Keys
    requires IsTop(ids, pay, x) && IsTop(ids, pay, y)
    ensures x == y
  {
    assert RanksAtMost(pay, x, y) && RanksAtMost(pay, y, x);
  }

  /** Every finite non-empty set of employees has a top. */
  lemma {:induction false} TopExists(ids: set<int>, pay: Roster)
    requires ids <= pay.Keys && ids != {}
    ensures exists x :: IsTop(ids, pay, x)
    decreases |ids|
  {
    SomeMember(ids);
    var y :| y in ids;
    var rest := ids - {y};
    assert ids == rest + {y};
    if rest == {} {
      assert IsTop(ids, pay, y);
    } else {
      TopExists(rest, pay);
      var z :| IsTop(rest, pay, z);
      if RanksAtMost(pay, y, z) {
        assert IsTop(ids, pay, z);
      } else {
        assert IsTop(ids, pay, y);
      }
    }
  }

  /** The member of a non-empty `ids` with the greatest (salary, id). */
  function Top(ids: set<int>, pay: Roster): (x: int)
    requires ids <= pay.Keys && ids != {}
    ensures IsTop(ids, pay, x)
  {
    TopExists(ids, pay);
    var x :| IsTop(ids, pay, x); x
  }

  /** The pool members whose salary is at most `thd` (simulator.py:40). */
  function Eligible(pool: Roster, thd: int): set<int>
  {
    set x | x in pool && pool[x] <= thd
  }

  /** RecruitmentFirm.find_by_salary (simulator.py:39-42): the pool member
      with the greatest (salary, id) among those earning at most `thd`, or
      nothing when nobody earns that little. */
  function FindBySalary(pool: Roster, thd: int): (r: Option<int>)
    ensures r.None? <==> forall x :: x in pool ==> pool[x] > thd
    ensures r.Some? ==> r.value in pool && pool[r.value] <= thd
    ensures r.Some? ==> forall y :: y in pool && pool[y] <= thd ==> RanksAtMost(pool, y, r.value)
  {
    var c := Eligible(pool, thd);
    if c == {} then
      assert forall x :: x in pool && pool[x] <= thd ==> x in c;
      None
    else
      SomeMember(c);
      Some(Top(c, pool))
  }

  /** HighTechFirm.highest_paid (simulator.py:52-55): the member with the
      greatest (salary, id), or nothing for an empty firm (the source raises,
      and its caller answers Failure). */
  function HighestPaid(firm: Roster): (r: Option<int>)
    ensures r.None? <==> firm == map[]
    ensures r.Some? ==> IsTop(firm.Keys, firm, r.value)
  {
    if firm == map[] then None
    else
      assert firm.Keys != {} by {
        SomeMember(firm.Keys);
      }
      Some(Top(firm.Keys, firm))
  }

  /** cut_salary (simulator.py:58-60) applied to one salary. */
  function CutSalary(salary: int, thd: int, cut: int): (r: int)
    ensures cut >= 0 ==> r <= salary
    ensures 0 <= cut <= thd && salary >= 0 ==> r >= 0
    ensures r != salary ==> salary >= thd
    ensures salary >= thd ==> r == salary - cut
  {
    if salary >= thd then salary - cut else salary
  }

  /** HighTechFirm.cutbacks (simulator.py:57-61): every member earning at
      least `thd` loses exactly `cut`; everyone else keeps their salary. */
  function CutBacks(firm: Roster, thd: int, cut: int): (r: Roster)
    ensures r.Keys == firm.Keys
    ensures forall x :: x in firm && firm[x] >= thd ==> r[x] == firm[x] - cut
    ensures forall x :: x in firm && firm[x] < thd ==> r[x] == firm[x]
  {
    map x | x in firm :: CutSalary(firm[x], thd, cut)
  }

  /** A cut no larger than the threshold never drives a salary below zero:
      only salaries of at least `thd` are cut, and they lose at most `thd`. */
  lemma CutBacksKeepsSalariesNonNegative(firm: Roster, thd: int, cut: int)
    requires 0 <= cut <= thd
    requires forall x :: x in firm ==> firm[x] >= 0
    ensures forall x :: x in CutBacks(firm, thd, cut) ==> CutBacks(firm, thd, cut)[x] >= 0
    ensures forall x :: x in firm ==> CutBacks(firm, thd, cut)[x] <= firm[x]
  {
  }

  /** Adding one more member to a set keeps the better of the old top and
      the newcomer as the top. */
  lemma TopAfterVisit(seen: set<int>, pay: Roster, best: int, x: int)
    requires seen <= pay.Keys && x in pay
    requires IsTop(seen, pay, best)
    ensures RanksAtMost(pay, best, x) ==> IsTop(seen + {x}, pay, x)
    ensures !RanksAtMost(pay, best, x) ==> IsTop(seen + {x}, pay, best)
  {
  }

  /** A linear scan that selects the same element as Python's
      `max(..., key=lambda x: (x.salary, x.id))` (simulator.py:42) and
      `sorted(..., key=...)[-1]` (simulator.py:54): it visits the members one
      by one and keeps the best seen so far. */
  method MaxByKey(ids: set<int>, pay: Roster) returns (r: Option<int>)
    requires ids <= pay.Keys
    ensures r.None? <==> ids == {}
    ensures r.Some? ==> IsTop(ids, pay, r.value)
  {
    r := None;
    var rest := ids;
    ghost var seen: set<int> := {};
    while rest != {}
      invariant seen == ids - rest && rest <= ids
      invariant r.None? <==> seen == {}
      invariant r.Some? ==> IsTop(seen, pay, r.value)
      decreases |rest|
    {
      SomeMember(rest);
      var x :| x in rest;
      if r.None? {
        assert IsTop({x}, pay, x);
        r := Some(x);
      } else {
        TopAfterVisit(seen, pay, r.value, x);
        if RanksAtMost(pay, r.value, x) {
          r := Some(x);
        }
      }
      seen := seen + {x};
      rest := rest - {x};
    }
  }

  /** The scan over the filtered pool picks the same employee as the
      declarative FindBySalary. */
  method ScanBySalary(pool: Roster, thd: int) returns (r: Option<int>)
    ensures r == FindBySalary(pool, thd)
  {
    r := MaxByKey(Eligible(pool, thd), pool);
    var expected := FindBySalary(pool, thd);
    if r.Some? {
      assert expected.Some? && IsTop(Eligible(pool, thd), pool, expected.value);
      TopUnique(Eligible(pool, thd), pool, r.value, expected.value);
    }
  }

  /** The scan over a firm picks the same employee as HighestPaid. */
  method ScanHighestPaid(firm: Roster) returns (r: Option<int>)
    ensures r == HighestPaid(firm)
  {
    r := MaxByKey(firm.Keys, firm);
    if r.Some? {
      TopUnique(firm.Keys, firm, r.value, HighestPaid(firm).value);
    }
  }

  /** The in-place loop of simulator.py:61, which mutates each member's
      salary in turn, ends in the roster CutBacks describes. */
  method CutEach(firm: Roster, thd: int, cut: int) returns (r: Roster)
    ensures r == CutBacks(firm, thd, cut)
  {
    r := firm;
    var todo := firm.Keys;
    while todo != {}
      invariant todo <= firm.Keys
      invariant r.Keys == firm.Keys
      invariant forall x :: x in todo ==> r[x] == firm[x]
      invariant forall x :: x in firm && x !in todo ==> r[x] == CutSalary(firm[x], thd, cut)
      decreases |todo|
    {
      SomeMember(todo);
      var x :| x in todo;
      if r[x] >= thd {
        r := r[x := r[x] - cut];
      }
      todo := todo - {x};
    }
    assert forall x :: x in r ==> r[x] == CutBacks(firm, thd, cut)[x];
  }
}

=== FILE: scenarios.dfy ===
/** Concrete command sequences from the repository's fixed test scenarios
    (simple_tests.py), each started from a fresh simulator, with the
    responses the simulator gives.

    Each test first sends `Comment('Test: <name>')` (simple_tests.py:12-18).
    That line is left out of the sequences here: a Comment answers only its
    echo and never changes the state (`Commands.Execute`), so the responses
    to the remaining commands are the same with or without it. */
module Scenarios {
  import P = Protocol
  import Options
  import Rosters
  import opened Simulator
  import opened Commands

  /** The nine firms of `Init(9)`, all empty. */
  const NineFirms: seq<Rosters.Roster> := seq(9, _ => map[])

  /** The first two commands of testHireBySalary and testNoHireBySalary:
      one job searcher with the given id and salary in the pool. */
  lemma OneSearcher(id: int, salary: int)
    ensures Execute(Fresh, Init(9)) == Step(P.InitDone, Sim(true, {}, map[], NineFirms))
    ensures Execute(Sim(true, {}, map[], NineFirms), AddJobSearcher(id, salary)) ==
              (if id < 0 || salary < 0 then Step(P.InvalidInput(P.AddJobSearcher), Sim(true, {}, map[], NineFirms))
               else Step(P.Success(P.AddJobSearcher), Sim(true, {id}, map[id := salary], NineFirms)))
  {
  }

  /** testHireBySalary (simple_tests.py:115-119): the only job searcher
      earns 1 <= 40, so HireBySalary hires them. */
  lemma HireBySalaryScenario()
    ensures Runnable(Fresh, [Init(9), AddJobSearcher(39, 1), HireBySalary(7, 40), GetNumEmployed(7)])
    ensures Run(Fresh, [Init(9), AddJobSearcher(39, 1), HireBySalary(7, 40), GetNumEmployed(7)]).responses
            == [P.InitDone, P.Success(P.AddJobSearcher), P.Success(P.HireBySalary),
                P.SuccessWith(P.GetNumEmployed, 1)]
  {
    var s1 := Sim(true, {}, map[], NineFirms);
    var s2 := Sim(true, {39}, map[39 := 1], NineFirms);
    var s3 := Sim(true, {39}, map[], NineFirms[7 := map[39 := 1]]);
    OneSearcher(39, 1);
    assert Rosters.FindBySalary(s2.pool, 40) == Options.Some(39);
    assert Execute(s2, HireBySalary(7, 40)) == Step(P.Success(P.HireBySalary), s3);
    assert Execute(s3, GetNumEmployed(7)) == Step(P.SuccessWith(P.GetNumEmployed, 1), s3);
    RunCons(s3, GetNumEmployed(7), []);
    RunCons(s2, HireBySalary(7, 40), [GetNumEmployed(7)]);
    RunCons(s1, AddJobSearcher(39, 1), [HireBySalary(7, 40), GetNumEmployed(7)]);
    RunCons(Fresh, Init(9), [AddJobSearcher(39, 1), HireBySalary(7, 40), GetNumEmployed(7)]);
  }

  /** testNoHireBySalary (simple_tests.py:121-126): the only job searcher
      earns 41 > 40, so nobody is hired. */
  lemma NoHireBySalaryScenario()
    ensures Runnable(Fresh, [Init(9), AddJobSearcher(9, 41), HireBySalary(7, 40), GetNumEmployed(7)])
    ensures Run(Fresh, [Init(9), AddJobSearcher(9, 41), HireBySalary(7, 40), GetNumEmployed(7)]).responses
            == [P.InitDone, P.Success(P.AddJobSearcher), P.Failure(P.HireBySalary),
                P.SuccessWith(P.GetNumEmployed, 0)]
  {
    var s1 := Sim(true, {}, map[], NineFirms);
    var s2 := Sim(true, {9}, map[9 := 41], NineFirms);
    OneSearcher(9, 41);
    assert Execute(s2, HireBySalary(7, 40)) == Step(P.Failure(P.HireBySalary), s2);
    assert Execute(s2, GetNumEmployed(7)) == Step(P.SuccessWith(P.GetNumEmployed, 0), s2);
    RunCons(s2, GetNumEmployed(7), []);
    RunCons(s2, HireBySalary(7, 40), [GetNumEmployed(7)]);
    RunCons(s1, AddJobSearcher(9, 41), [HireBySalary(7, 40), GetNumEmployed(7)]);
    RunCons(Fresh, Init(9), [AddJobSearcher(9, 41), HireBySalary(7, 40), GetNumEmployed(7)]);
  }

  /** testAddDuplicateJobSearcher (simple_tests.py:61-65): after id 1 is
      hired away it is no longer in the pool, yet adding it again fails
      because the directory still holds it. */
  lemma AddDuplicateScenario()
    ensures Runnable(Fresh, [Init(10), AddJobSearcher(1, 2), Hire(1, 1), AddJobSearcher(1, 2)])
    ensures Run(Fresh, [Init(10), AddJobSearcher(1, 2), Hire(1, 1), AddJobSearcher(1, 2)]).responses
            == [P.InitDone, P.Success(P.AddJobSearcher), P.Success(P.Hire), P.Failure(P.AddJobSearcher)]
  {
  }

  /** testFireNoEmpl (simple_tests.py:161-163). */
  lemma FireNobodyScenario()
    ensures Runnable(Fresh, [Init(10), Fire(1, 80)])
    ensures Run(Fresh, [Init(10), Fire(1, 80)]).responses == [P.InitDone, P.Failure(P.Fire)]
  {
  }

  /** testFireTwice (simple_tests.py:166-173) in two parts: a searcher
      added and hired by firm 1, then fired twice with a headcount query
      after each Fire. */
  const FireTwiceHiring: seq<Command> := [Init(10), AddJobSearcher(10, 10), Hire(1, 10)]
  const FireTwiceFiring: seq<Command> := [Fire(1, 10), GetNumEmployed(1), Fire(1, 10), GetNumEmployed(1)]

  /** Job searcher 10 is added and hired: firm 1 holds them, the pool is
      empty and the directory keeps their id. */
  lemma FireTwiceHired()
    ensures Runnable(Fresh, FireTwiceHiring)
    ensures Run(Fresh, FireTwiceHiring) ==
              Trace([P.InitDone, P.Success(P.AddJobSearcher), P.Success(P.Hire)],
                    Sim(true, {10}, map[], TenFirms[1 := map[10 := 10]]))
  {
    var s1 := Execute(Fresh, Init(10)).next;
    assert s1 == Sim(true, {}, map[], TenFirms);
    var s2 := Execute(s1, AddJobSearcher(10, 10)).next;
    assert s2 == Sim(true, {10}, map[10 := 10], TenFirms);
    var s3 := Execute(s2, Hire(1, 10)).next;
    assert s3 == Sim(true, {10}, map[], TenFirms[1 := map[10 := 10]]);
    RunCons(s2, Hire(1, 10), []);
    RunCons(s1, AddJobSearcher(10, 10), [Hire(1, 10)]);
    RunCons(Fresh, Init(10), [AddJobSearcher(10, 10), Hire(1, 10)]);
  }

  /** The first Fire returns the employee to the pool and empties the firm;
      the second finds nobody to fire. */
  lemma FireTwiceFired()
    ensures var s := Sim(true, {10}, map[], TenFirms[1 := map[10 := 10]]);
            && Runnable(s, FireTwiceFiring)
            && Run(s, FireTwiceFiring) ==
                 Trace([P.Success(P.Fire), P.SuccessWith(P.GetNumEmployed, 0),
                        P.Failure(P.Fire), P.SuccessWith(P.GetNumEmployed, 0)],
                       Sim(true, {10}, map[10 := 10], TenFirms))
  {
    var s := Sim(true, {10}, map[], TenFirms[1 := map[10 := 10]]);
    var s4 := Sim(true, {10}, map[10 := 10], TenFirms);
    assert Execute(s, Fire(1, 10)) == Step(P.Success(P.Fire), s4);
    assert Execute(s4, GetNumEmployed(1)) == Step(P.SuccessWith(P.GetNumEmployed, 0), s4);
    assert Execute(s4, Fire(1, 10)) == Step(P.Failure(P.Fire), s4);
    RunCons(s4, GetNumEmployed(1), []);
    RunCons(s4, Fire(1, 10), [GetNumEmployed(1)]);
    RunCons(s4, GetNumEmployed(1), [Fire(1, 10), GetNumEmployed(1)]);
    RunCons(s, Fire(1, 10), [GetNumEmployed(1), Fire(1, 10), GetNumEmployed(1)]);
  }

  /** The whole of testFireTwice: the second Fire fails and the firm stays
      empty. */
  lemma FireTwiceScenario()
    ensures Runnable(Fresh, FireTwiceHiring + FireTwiceFiring)
    ensures Run(Fresh, FireTwiceHiring + FireTwiceFiring).responses ==
              [P.InitDone, P.Success(P.AddJobSearcher), P.Success(P.Hire), P.Success(P.Fire),
               P.SuccessWith(P.GetNumEmployed, 0), P.Failure(P.Fire), P.SuccessWith(P.GetNumEmployed, 0)]
  {
    FireTwiceHired();
    FireTwiceFired();
    RunConcat(Fresh, FireTwiceHiring, FireTwiceFiring);
  }

  /** testInitTwice (simple_tests.py:51-53): the second Init, with another
      argument, is refused. */
  lemma InitTwiceScenario()
    ensures Runnable(Fresh, [Init(10), Init(123)])
    ensures Run(Fresh, [Init(10), Init(123)]).responses == [P.InitDone, P.InitAlreadyCalled]
  {
  }

  /** testNegBonus (simple_tests.py:141-145): a negative bonus for a hired
      employee is Invalid_input. */
  lemma NegativeBonusScenario()
    ensures Runnable(Fresh, [Init(10), AddJobSearcher(1, 2), Hire(1, 1), Bonus(1, 1, -10)])
    ensures Run(Fresh, [Init(10), AddJobSearcher(1, 2), Hire(1, 1), Bonus(1, 1, -10)]).responses
            == [P.InitDone, P.Success(P.AddJobSearcher), P.Success(P.Hire), P.InvalidInput(P.Bonus)]
  {
  }

  /** The ten firms of `Init(10)`, all empty. */
  const TenFirms: seq<Rosters.Roster> := seq(10, _ => map[])

  /** A job searcher with a fresh id joins the pool and the directory. */
  lemma AddStep(ged: set<int>, pool: Rosters.Roster, firms: seq<Rosters.Roster>, id: int, salary: int)
    requires id >= 0 && salary >= 0 && id !in ged
    ensures Execute(Sim(true, ged, pool, firms), AddJobSearcher(id, salary)) ==
              Step(P.Success(P.AddJobSearcher), Sim(true, ged + {id}, pool[id := salary], firms))
  {
  }

  /** Firm 1 of ten hires pool member `id` at its pool salary. */
  lemma HireStep(ged: set<int>, pool: Rosters.Roster, firm: Rosters.Roster, id: int)
    requires id >= 0 && id in pool
    ensures Execute(Sim(true, ged, pool, TenFirms[1 := firm]), Hire(1, id)) ==
              Step(P.Success(P.Hire), Sim(true, ged, pool - {id}, TenFirms[1 := firm[id := pool[id]]]))
  {
  }

  /** The three job searchers of testTypicalCutbacks join the pool. */
  lemma TypicalCutBacksAdded()
    ensures Runnable(Fresh, TypicalAdds)
    ensures Run(Fresh, TypicalAdds) ==
              Trace([P.InitDone, P.Success(P.AddJobSearcher), P.Success(P.AddJobSearcher),
                     P.Success(P.AddJobSearcher)],
                    Sim(true, {1, 2, 3}, map[1 := 20, 2 := 30, 3 := 40], TenFirms))
  {
    var s1 := Sim(true, {}, map[], TenFirms);
    var s2 := Sim(true, {1}, map[1 := 20], TenFirms);
    var s3 := Sim(true, {1, 2}, map[1 := 20, 2 := 30], TenFirms);
    var s4 := Sim(true, {1, 2, 3}, map[1 := 20, 2 := 30, 3 := 40], TenFirms);
    assert Execute(Fresh, Init(10)) == Step(P.InitDone, s1);
    AddStep({}, map[], TenFirms, 1, 20);
    AddStep({1}, map[1 := 20], TenFirms, 2, 30);
    AddStep({1, 2}, map[1 := 20, 2 := 30], TenFirms, 3, 40);
    RunCons(s3, AddJobSearcher(3, 40), []);
    RunCons(s2, AddJobSearcher(2, 30), [AddJobSearcher(3, 40)]);
    RunCons(s1, AddJobSearcher(1, 20), [AddJobSearcher(2, 30), AddJobSearcher(3, 40)]);
    RunCons(Fresh, Init(10), [AddJobSearcher(1, 20), AddJobSearcher(2, 30), AddJobSearcher(3, 40)]);
  }

  /** Firm 1 hires the three job searchers one after another. */
  lemma TypicalCutBacksHired()
    ensures var s := Sim(true, {1, 2, 3}, map[1 := 20, 2 := 30, 3 := 40], TenFirms);
            && Runnable(s, TypicalHires)
            && Run(s, TypicalHires) ==
                 Trace([P.Success(P.Hire), P.Success(P.Hire), P.Success(P.Hire)],
                       Sim(true, {1, 2, 3}, map[], TenFirms[1 := map[1 := 20, 2 := 30, 3 := 40]]))
  {
    var s4 := Sim(true, {1, 2, 3}, map[1 := 20, 2 := 30, 3 := 40], TenFirms);
    var s5 := Sim(true, {1, 2, 3}, map[2 := 30, 3 := 40], TenFirms[1 := map[1 := 20]]);
    var s6 := Sim(true, {1, 2, 3}, map[3 := 40], TenFirms[1 := map[1 := 20, 2 := 30]]);
    assert TenFirms[1 := map[]] == TenFirms;
    HireStep({1, 2, 3}, map[1 := 20, 2 := 30, 3 := 40], map[], 1);
    assert map[1 := 20, 2 := 30, 3 := 40] - {1} == map[2 := 30, 3 := 40];
    HireStep({1, 2, 3}, map[2 := 30, 3 := 40], map[1 := 20], 2);
    assert map[2 := 30, 3 := 40] - {2} == map[3 := 40];
    HireStep({1, 2, 3}, map[3 := 40], map[1 := 20, 2 := 30], 3);
    assert map[3 := 40] - {3} == map[];
    RunCons(s6, Hire(1, 3), []);
    RunCons(s5, Hire(1, 2), [Hire(1, 3)]);
    RunCons(s4, Hire(1, 1), [Hire(1, 2), Hire(1, 3)]);
  }

  /** Salaries 20, 30, 40 cut by 10 at threshold 30 become 20, 20, 30. */
  lemma CutOfThree()
    ensures Rosters.CutBacks(map[1 := 20, 2 := 30, 3 := 40], 30, 10) == map[1 := 20, 2 := 20, 3 := 30]
  {
    var after := Rosters.CutBacks(map[1 := 20, 2 := 30, 3 := 40], 30, 10);
    assert after.Keys == {1, 2, 3};
    assert after[1] == 20 && after[2] == 20 && after[3] == 30;
  }

  /** After the cut ids 2 and 3 no longer tie: id 3 is the highest paid. */
  lemma TopOfThree()
    ensures Rosters.HighestPaid(map[1 := 20, 2 := 20, 3 := 30]) == Options.Some(3)
  {
    var cut := map[1 := 20, 2 := 20, 3 := 30];
    assert 1 in cut;
    var top := Rosters.HighestPaid(cut);
    assert top.Some? && Rosters.IsTop(cut.Keys, cut, top.value);
    assert Rosters.RanksAtMost(cut, 3, top.value);
  }

  /** CutBacks(1, 30, 10) on firm 1 of testTypicalCutbacks. */
  lemma TypicalCutStep()
    ensures Execute(Sim(true, {1, 2, 3}, map[], TenFirms[1 := map[1 := 20, 2 := 30, 3 := 40]]), CutBacks(1, 30, 10)) ==
              Step(P.Success(P.CutBacks), Sim(true, {1, 2, 3}, map[], TenFirms[1 := map[1 := 20, 2 := 20, 3 := 30]]))
  {
    CutOfThree();
  }

  /** HighestPaid(1) and GetNumEmployed(1) after the cut. */
  lemma TypicalQuerySteps()
    ensures var s := Sim(true, {1, 2, 3}, map[], TenFirms[1 := map[1 := 20, 2 := 20, 3 := 30]]);
            && Execute(s, HighestPaid(1)) == Step(P.SuccessWith(P.HighestPaid, 3), s)
            && Execute(s, GetNumEmployed(1)) == Step(P.SuccessWith(P.GetNumEmployed, 3), s)
  {
    TopOfThree();
  }

  /** The cut of testTypicalCutbacks, then the two queries. */
  lemma TypicalCutBacksCut()
    ensures var s := Sim(true, {1, 2, 3}, map[], TenFirms[1 := map[1 := 20, 2 := 30, 3 := 40]]);
            var cmds := TypicalTail;
            && Runnable(s, cmds)
            && Run(s, cmds) ==
                 Trace([P.Success(P.CutBacks), P.SuccessWith(P.HighestPaid, 3),
                        P.SuccessWith(P.GetNumEmployed, 3)],
                       Sim(true, {1, 2, 3}, map[], TenFirms[1 := map[1 := 20, 2 := 20, 3 := 30]]))
  {
    var s := Sim(true, {1, 2, 3}, map[], TenFirms[1 := map[1 := 20, 2 := 30, 3 := 40]]);
    var s8 := Sim(true, {1, 2, 3}, map[], TenFirms[1 := map[1 := 20, 2 := 20, 3 := 30]]);
    TypicalCutStep();
    TypicalQuerySteps();
    RunCons(s8, GetNumEmployed(1), []);
    RunCons(s8, HighestPaid(1), [GetNumEmployed(1)]);
    RunCons(s, CutBacks(1, 30, 10), [HighestPaid(1), GetNumEmployed(1)]);
  }

  /** testTypicalCutbacks (simple_tests.py:213-224) in three parts: the
      adds, the hires, and the cut with its two queries. */
  const TypicalAdds: seq<Command> :=
    [Init(10), AddJobSearcher(1, 20), AddJobSearcher(2, 30), AddJobSearcher(3, 40)]
  const TypicalHires: seq<Command> := [Hire(1, 1), Hire(1, 2), Hire(1, 3)]
  const TypicalTail: seq<Command> := [CutBacks(1, 30, 10), HighestPaid(1), GetNumEmployed(1)]

  /** The first seven commands of testTypicalCutbacks: three searchers
      added, then all three hired by firm 1. */
  lemma TypicalCutBacksPrefix()
    ensures Runnable(Fresh, TypicalAdds + TypicalHires)
    ensures Run(Fresh, TypicalAdds + TypicalHires) ==
              Trace([P.InitDone, P.Success(P.AddJobSearcher), P.Success(P.AddJobSearcher),
                     P.Success(P.AddJobSearcher), P.Success(P.Hire), P.Success(P.Hire), P.Success(P.Hire)],
                    Sim(true, {1, 2, 3}, map[], TenFirms[1 := map[1 := 20, 2 := 30, 3 := 40]]))
  {
    TypicalCutBacksAdded();
    TypicalCutBacksHired();
    RunConcat(Fresh, TypicalAdds, TypicalHires);
  }

  /** The whole of testTypicalCutbacks: every command succeeds, the firm's
      salaries end as 20, 20, 30, id 3 is the highest paid and three are
      employed. */
  lemma TypicalCutBacksScenario()
    ensures Runnable(Fresh, TypicalAdds + TypicalHires + TypicalTail)
    ensures Run(Fresh, TypicalAdds + TypicalHires + TypicalTail).responses ==
              [P.InitDone, P.Success(P.AddJobSearcher), P.Success(P.AddJobSearcher),
               P.Success(P.AddJobSearcher), P.Success(P.Hire), P.Success(P.Hire), P.Success(P.Hire),
               P.Success(P.CutBacks), P.SuccessWith(P.HighestPaid, 3), P.SuccessWith(P.GetNumEmployed, 3)]
    ensures Run(Fresh, TypicalAdds + TypicalHires + TypicalTail).final ==
              Sim(true, {1, 2, 3}, map[], TenFirms[1 := map[1 := 20, 2 := 20, 3 := 30]])
  {
    TypicalCutBacksPrefix();
    TypicalCutBacksCut();
    RunConcat(Fresh, TypicalAdds + TypicalHires, TypicalTail);
  }
}

=== FILE: simulator.dfy ===
/** The reference simulator Wet1Sim (simulator.py:64-183): one recruitment
    pool, the firms created by Init, and the directory `ged` of every id
    that was added and not yet removed by a successful RemoveJobSearcher.

    Each operation checks its arguments first and answers Invalid_input
    without touching the state when they are out of range; otherwise it
    answers Failure, again without touching the state, or applies its
    change and answers Success. An operation returns the response together
    with the state after it. */
module Simulator {
  import opened Options
  import opened Rosters
  import opened Protocol

  /** The simulator's state. `initialized` is Wet1Sim._init; `ged` is the
      directory; `pool` is the recruitment firm; `firms` the high-tech firms,
      indexed by cid. An employee's salary lives in the container that holds
      it. The directory and the container share one Employee object, and no
      salary is ever read through the directory, so only its ids are kept. */
  datatype Sim = Sim(initialized: bool, ged: set<int>, pool: Roster, firms: seq<Roster>)

  /** Wet1Sim.__init__ (simulator.py:65-67): not initialized, empty directory. */
  const Fresh: Sim := Sim(false, {}, map[], [])

  /** A response and the state after the command that produced it. */
  datatype Step = Step(response: Response, next: Sim)

  predicate IsFirm(s: Sim, cid: int)
  {
    0 <= cid < |s.firms|
  }

  /** The state after pool member `id` moves, with its salary, to firm `cid`
      (simulator.py:105-107 and 119-120). */
  function Hired(s: Sim, cid: int, id: int): (t: Sim)
    requires IsFirm(s, cid) && id in s.pool
    ensures t.initialized == s.initialized && t.ged == s.ged && |t.firms| == |s.firms|
    ensures t.pool.Keys == s.pool.Keys - {id}
    ensures forall x :: x in t.pool ==> t.pool[x] == s.pool[x]
    ensures t.firms[cid].Keys == s.firms[cid].Keys + {id} && t.firms[cid][id] == s.pool[id]
    ensures forall x :: x in s.firms[cid] && x != id ==> t.firms[cid][x] == s.firms[cid][x]
    ensures forall i :: 0 <= i < |s.firms| && i != cid ==> t.firms[i] == s.firms[i]
  {
    s.(pool := s.pool - {id}, firms := s.firms[cid := s.firms[cid][id := s.pool[id]]])
  }

  /** Wet1Sim.Init (simulator.py:69-75). The first call creates max(k, 0)
      empty firms (`xrange(k)` is empty for k <= 0) and an empty pool and
      keeps the directory; later calls change nothing. */
  function Init(s: Sim, k: int): (r: Step)
    ensures s.initialized ==> r == Step(InitAlreadyCalled, s)
    ensures !s.initialized ==> r.response == InitDone && r.next.initialized
    ensures !s.initialized ==> r.next.ged == s.ged && r.next.pool == map[]
    ensures !s.initialized ==> |r.next.firms| == (if k > 0 then k else 0)
    ensures !s.initialized ==> forall i :: 0 <= i < |r.next.firms| ==> r.next.firms[i] == map[]
  {
    if s.initialized then Step(InitAlreadyCalled, s)
    else Step(InitDone, Sim(true, s.ged, map[], seq(if k > 0 then k else 0, _ => map[])))
  }

  /** Wet1Sim.AddJobSearcher (simulator.py:77-87): a new id enters the
      directory and the pool; an id already in the directory is refused,
      even when its employee has since been hired. */
  function AddJobSearcher(s: Sim, id: int, salary: int): (r: Step)
    requires s.initialized
    ensures r.response == InvalidInput(Verb.AddJobSearcher) <==> id < 0 || salary < 0
    ensures r.response == Failure(Verb.AddJobSearcher) <==> id >= 0 && salary >= 0 && id in s.ged
    ensures r.response == Success(Verb.AddJobSearcher) <==> id >= 0 && salary >= 0 && id !in s.ged
    ensures !r.response.Success? ==> r.next == s
    ensures r.response.Success? ==> r.next == s.(ged := s.ged + {id}, pool := s.pool[id := salary])
  {
    if id < 0 || salary < 0 then Step(InvalidInput(Verb.AddJobSearcher), s)
    else if id in s.ged then Step(Failure(Verb.AddJobSearcher), s)
    else Step(Success(Verb.AddJobSearcher), s.(ged := s.ged + {id}, pool := s.pool[id := salary]))
  }

  /** Wet1Sim.RemoveJobSearcher (simulator.py:89-99): succeeds only for an
      id in the directory whose employee is still in the pool, and then
      removes it from both. */
  function RemoveJobSearcher(s: Sim, id: int): (r: Step)
    requires s.initialized
    ensures r.response == InvalidInput(Verb.RemoveJobSearcher) <==> id < 0
    ensures r.response == Success(Verb.RemoveJobSearcher) <==> id >= 0 && id in s.ged && id in s.pool
    ensures r.response == Failure(Verb.RemoveJobSearcher) <==> id >= 0 && (id !in s.ged || id !in s.pool)
    ensures !r.response.Success? ==> r.next == s
    ensures r.response.Success? ==> r.next == s.(ged := s.ged - {id}, pool := s.pool - {id})
  {
    if id < 0 then Step(InvalidInput(Verb.RemoveJobSearcher), s)
    else if id !in s.ged || id !in s.pool then Step(Failure(Verb.RemoveJobSearcher), s)
    else Step(Success(Verb.RemoveJobSearcher), s.(ged := s.ged - {id}, pool := s.pool - {id}))
  }

  /** Wet1Sim.Hire (simulator.py:101-110): moves the pool member `id` to
      firm `cid`; the directory is left as it is. */
  function Hire(s: Sim, cid: int, id: int): (r: Step)
    requires s.initialized
    ensures r.response == InvalidInput(Verb.Hire) <==> id < 0 || !IsFirm(s, cid)
    ensures r.response == Failure(Verb.Hire) <==> id >= 0 && IsFirm(s, cid) && id !in s.pool
    ensures r.response == Success(Verb.Hire) <==> id >= 0 && IsFirm(s, cid) && id in s.pool
    ensures !r.response.Success? ==> r.next == s
    ensures r.response.Success? ==> IsFirm(s, cid) && id in s.pool && r.next == Hired(s, cid, id)
  {
    if id < 0 || cid < 0 || cid >= |s.firms| then Step(InvalidInput(Verb.Hire), s)
    else if id !in s.pool then Step(Failure(Verb.Hire), s)
    else Step(Success(Verb.Hire), Hired(s, cid, id))
  }

  /** Wet1Sim.HireBySalary (simulator.py:112-123): moves to firm `cid` the
      pool member with the greatest (salary, id) among those earning at most
      `thd`; fails when nobody in the pool earns that little. */
  function HireBySalary(s: Sim, cid: int, thd: int): (r: Step)
    requires s.initialized
    ensures r.response == InvalidInput(Verb.HireBySalary) <==> !IsFirm(s, cid) || thd < 0
    ensures r.response == Failure(Verb.HireBySalary) <==>
              IsFirm(s, cid) && thd >= 0 && forall x :: x in s.pool ==> s.pool[x] > thd
    ensures r.response in {InvalidInput(Verb.HireBySalary), Failure(Verb.HireBySalary), Success(Verb.HireBySalary)}
    ensures !r.response.Success? ==> r.next == s
    ensures r.response.Success? ==>
              IsFirm(s, cid) &&
              exists x :: x in s.pool && s.pool[x] <= thd && r.next == Hired(s, cid, x) &&
                          forall y :: y in s.pool && s.pool[y] <= thd ==> RanksAtMost(s.pool, y, x)
  {
    if cid < 0 || cid >= |s.firms| || thd < 0 then Step(InvalidInput(Verb.HireBySalary), s)
    else match FindBySalary(s.pool, thd)
      case None => Step(Failure(Verb.HireBySalary), s)
      case Some(x) => Step(Success(Verb.HireBySalary), Hired(s, cid, x))
  }

  /** Wet1Sim.Bonus (simulator.py:125-133): raises the salary of member
      `id` of firm `cid` by `bonus`; nobody else's salary changes. */
  function Bonus(s: Sim, cid: int, id: int, bonus: int): (r: Step)
    requires s.initialized
    ensures r.response == InvalidInput(Verb.Bonus) <==> !IsFirm(s, cid) || id < 0 || bonus < 0
    ensures r.response == Failure(Verb.Bonus) <==>
              IsFirm(s, cid) && id >= 0 && bonus >= 0 && id !in s.firms[cid]
    ensures r.response in {InvalidInput(Verb.Bonus), Failure(Verb.Bonus), Success(Verb.Bonus)}
    ensures !r.response.Success? ==> r.next == s
    ensures r.response.Success? ==>
              && IsFirm(s, cid) && id in s.firms[cid]
              && r.next.initialized && r.next.ged == s.ged && r.next.pool == s.pool
              && |r.next.firms| == |s.firms|
              && (forall i :: 0 <= i < |s.firms| && i != cid ==> r.next.firms[i] == s.firms[i])
              && r.next.firms[cid].Keys == s.firms[cid].Keys
              && r.next.firms[cid][id] == s.firms[cid][id] + bonus
              && (forall x :: x in s.firms[cid] && x != id ==> r.next.firms[cid][x] == s.firms[cid][x])
  {
    if cid < 0 || cid >= |s.firms| || id < 0 || bonus < 0 then Step(InvalidInput(Verb.Bonus), s)
    else if id !in s.firms[cid] then Step(Failure(Verb.Bonus), s)
    else
      var firm := s.firms[cid];
      Step(Success(Verb.Bonus), s.(firms := s.firms[cid := firm[id := firm[id] + bonus]]))
  }

  /** Wet1Sim.Fire (simulator.py:135-144): moves member `id` of firm `cid`,
      with its salary, back to the pool. */
  function Fire(s: Sim, cid: int, id: int): (r: Step)
    requires s.initialized
    ensures r.response == InvalidInput(Verb.Fire) <==> !IsFirm(s, cid) || id < 0
    ensures r.response == Failure(Verb.Fire) <==> IsFirm(s, cid) && id >= 0 && id !in s.firms[cid]
    ensures r.response == Success(Verb.Fire) <==> IsFirm(s, cid) && id >= 0 && id in s.firms[cid]
    ensures !r.response.Success? ==> r.next == s
    ensures r.response.Success? ==>
              && IsFirm(s, cid) && id in s.firms[cid]
              && r.next == s.(pool := s.pool[id := s.firms[cid][id]],
                              firms := s.firms[cid := s.firms[cid] - {id}])
  {
    if cid < 0 || cid >= |s.firms| || id < 0 then Step(InvalidInput(Verb.Fire), s)
    else if id !in s.firms[cid] then Step(Failure(Verb.Fire), s)
    else
      var firm := s.firms[cid];
      Step(Success(Verb.Fire), s.(pool := s.pool[id := firm[id]], firms := s.firms[cid := firm - {id}]))
  }

  /** Wet1Sim.GetNumEmployed (simulator.py:146-153): the size of firm `cid`;
      never fails for a valid cid. */
  function GetNumEmployed(s: Sim, cid: int): (r: Step)
    requires s.initialized
    ensures r.next == s
    ensures r.response == InvalidInput(Verb.GetNumEmployed) <==> !IsFirm(s, cid)
    ensures IsFirm(s, cid) ==> r.response == SuccessWith(Verb.GetNumEmployed, |s.firms[cid]|)
  {
    if cid < 0 || cid >= |s.firms| then Step(InvalidInput(Verb.GetNumEmployed), s)
    else Step(SuccessWith(Verb.GetNumEmployed, |s.firms[cid]|), s)
  }

  /** Wet1Sim.HighestPaid (simulator.py:155-162): the id with the greatest
      (salary, id) in firm `cid`; fails for an empty firm. */
  function HighestPaid(s: Sim, cid: int): (r: Step)
    requires s.initialized
    ensures r.next == s
    ensures r.response == InvalidInput(Verb.HighestPaid) <==> !IsFirm(s, cid)
    ensures r.response == Failure(Verb.HighestPaid) <==> IsFirm(s, cid) && s.firms[cid] == map[]
    ensures r.response.InvalidInput? || r.response.Failure? || r.response.SuccessWith?
    ensures r.response.verb == Verb.HighestPaid
    ensures r.response.SuccessWith? ==>
              && IsFirm(s, cid) && r.response.verb == Verb.HighestPaid
              && IsTop(s.firms[cid].Keys, s.firms[cid], r.response.n)
  {
    if cid < 0 || cid >= |s.firms| then Step(InvalidInput(Verb.HighestPaid), s)
    else match Rosters.HighestPaid(s.firms[cid])
      case None => Step(Failure(Verb.HighestPaid), s)
      case Some(x) => Step(SuccessWith(Verb.HighestPaid, x), s)
  }

  /** Wet1Sim.CutBacks (simulator.py:164-174): in a non-empty firm `cid`,
      every member earning at least `thd` loses `cut`; the arguments must
      satisfy 0 <= cut <= thd. */
  function CutBacks(s: Sim, cid: int, thd: int, cut: int): (r: Step)
    requires s.initialized
    ensures r.response == InvalidInput(Verb.CutBacks) <==>
              !IsFirm(s, cid) || thd < 0 || cut < 0 || cut > thd
    ensures r.response == Failure(Verb.CutBacks) <==>
              IsFirm(s, cid) && 0 <= cut <= thd && s.firms[cid] == map[]
    ensures r.response in {InvalidInput(Verb.CutBacks), Failure(Verb.CutBacks), Success(Verb.CutBacks)}
    ensures !r.response.Success? ==> r.next == s
    ensures r.response.Success? ==>
              && IsFirm(s, cid)
              && r.next.initialized && r.next.ged == s.ged && r.next.pool == s.pool
              && |r.next.firms| == |s.firms|
              && (forall i :: 0 <= i < |s.firms| && i != cid ==> r.next.firms[i] == s.firms[i])
              && r.next.firms[cid].Keys == s.firms[cid].Keys
              && (forall x :: x in s.firms[cid] && s.firms[cid][x] >= thd ==>
                                r.next.firms[cid][x] == s.firms[cid][x] - cut)
              && (forall x :: x in s.firms[cid] && s.firms[cid][x] < thd ==>
                                r.next.firms[cid][x] == s.firms[cid][x])
  {
    if cid < 0 || cid >= |s.firms| || thd < 0 || cut < 0 || cut > thd then
      Step(InvalidInput(Verb.CutBacks), s)
    else if |s.firms[cid]| < 1 then Step(Failure(Verb.CutBacks), s)
    else Step(Success(Verb.CutBacks), s.(firms := s.firms[cid := Rosters.CutBacks(s.firms[cid], thd, cut)]))
  }

  /** Wet1Sim.Quit (simulator.py:176-180): drops the pool and the firms and
      clears the initialized flag, but keeps the directory. */
  function Quit(s: Sim): (r: Step)
    requires s.initialized
    ensures r.response == QuitDone
    ensures !r.next.initialized && r.next.ged == s.ged
    ensures r.next.pool == map[] && r.next.firms == []
  {
    Step(QuitDone, Sim(false, s.ged, map[], []))
  }

  /** Wet1Sim.Comment (simulator.py:182-183): echoes the text, changes nothing. */
  function Comment(s: Sim, text: string): (r: Step)
    ensures r.next == s
    ensures Render(r.response) == "#" + text
  {
    Step(Echo(text), s)
  }
}
